=== FILE: README.md ===
# blog-scraper ingestion pipeline, modelled in Dafny

The program turns the latest posts of a configured list of blogs into one EPUB
file and mails it. This project models the part with real logic in it:

- `getArticleLinks`: the item links of one RSS feed.
- `prepareEpub`: expands every blog's feed into at most five article tasks,
  scrapes the tasks one after another over one shared headless browser, and
  keeps the chapters that came back, in task order.
- `scrapeArticle`: what happens on one article page, and which browser calls
  it makes.
- `updateImages`: rewrites image sources against the article's address.
- `run` and `sendEpub`: the compact timestamp, the e-book title, file name
  and output path, the order of the three steps, and the mail request.

Everything is a pure function over immutable values. The external world is
an input:

- What a feed fetch and parse produced is a `FeedResponse`.
- What an article page did is a `PageOutcome`. Navigation failed, a selector
  never appeared, the title text, the article root present or not, and its
  content matches as token streams.
- URL resolution (`new URL(href, base)` of the WHATWG URL Standard) is a
  resolver function parameter that may fail.
- Whether a browser launch succeeds is a flag.

The scraper's effect on the browser is a list of `Call`s it issues, in order.
Browser ownership is stated on that list: which calls it contains, and
where.

Modules: `Wrappers` (Option, Result), `Blog` (blog and chapter records),
`Markup` (tokens, `outerHTML`, `join('\n')`), `Images`, `Feed`, `Scraper`,
`Pipeline`, `Naming`, `Runner`.

## Model

| member | source | states |
|---|---|---|
| Markup.OuterHtml | src/logic/epubLogic.js:61-64 | the serialisation of an element (a stream starting with a tag) is non-empty and starts with `<` |
| Markup.EscapeAttr | src/logic/epubLogic.js:61-64 | an image's `src` is written into `outerHTML` with `&`, no-break space and `"` escaped, so the value holds no raw quote or no-break space and is no shorter |
| Markup.EscapeAttrRoundTrip | src/logic/epubLogic.js:61-64 | the escaped value reads back as the original URL: escaping loses nothing |
| Markup.OuterHtmls | src/logic/epubLogic.js:61-64 | one `outerHTML` per content match, in match order |
| Markup.JoinLines | src/logic/epubLogic.js:65 | `join('\n')` has length total-of-parts plus one per gap; it is empty iff there is at most one part and every part is empty; it starts with the first part's first character |
| Markup.JoinLinesSnoc | src/logic/epubLogic.js:65 | joining one more part appends a newline and that part |
| Images.RewriteToken | src/logic/epubLogic.js:17-18 | an image's `src` property is replaced by `new URL(src, base)` when that resolves, and the call fails when it throws; other tokens are unchanged |
| Images.RewriteTokens | src/logic/epubLogic.js:13-19 | succeeds iff every image's `src` property resolves; then each such property (the browser's already-resolved URL, or "" when the attribute is missing) is replaced by `new URL(src, base)`, and every other token is unchanged |
| Images.RewriteEach | src/logic/epubLogic.js:13-19 | the same for every content match, match by match, keeping the number of matches |
| Images.UpdateImages | src/logic/epubLogic.js:12-23 | every `img` under the root, inside or outside the content matches, is rewritten; the call fails (throws) iff some source does not resolve |
| Images.RewrittenImagesAbsolute | src/logic/epubLogic.js:17-18 | if the resolver only yields absolute URLs, a rewritten stream has only absolute image sources |
| Feed.Links | src/logic/epubLogic.js:100 | exactly one link per item, the item's `link`, in item order |
| Feed.GetArticleLinks | src/logic/epubLogic.js:84-101 | yields links iff the feed produced an item array, then one per item in document order; a fetch, parse or shape failure rejects with its error |
| Feed.LinksAppend | src/logic/epubLogic.js:100 | projecting links commutes with concatenating item lists |
| Scraper.TitleOr | src/logic/epubLogic.js:50-54 | the title is the element's text when non-empty, otherwise `No title`; never empty |
| Scraper.ContentData | src/logic/epubLogic.js:61-65 | the body is the newline-joined `outerHTML`s when that join is non-empty, and `No conent` when it is empty (in particular when nothing matched); never empty |
| Scraper.NoConentIffNoMatches | src/logic/epubLogic.js:65 | when every match is an element, the body is `No conent` exactly when the content selector matched nothing |
| Scraper.SuccessTrace | src/logic/epubLogic.js:45-66 | the ten browser calls of an uninterrupted page visit, in order |
| Scraper.VisitPage | src/logic/epubLogic.js:45-70 | the calls are a prefix of: new page, 120 000 ms timeout, goto, wait title, read title, wait article, query article, rewrite images, read content, close page. The outcome fixes the prefix's length (`VisitLength`). A chapter comes back iff the page rendered and either the root is missing, or every image resolves and the content read resolves. A missing root gives `No content.` without rewriting images. Otherwise the body is built from the rewritten content |
| Scraper.VisitLength | src/logic/epubLogic.js:45-66 | the calls a visit issues, per outcome: 1 when the page cannot be opened, 3 when navigation fails, 4 when the title never appears, 6 when the article never appears, 7 for a missing root, 8 when an image does not resolve, 9 when the content read rejects, all 10 exactly when the whole try block ran |
| Scraper.VisitPageMarks | src/logic/epubLogic.js:56-66 | the page is closed iff the whole try block ran, and images are rewritten iff the article root was found |
| Scraper.ScrapeArticle | src/logic/epubLogic.js:35-79 | the scraper launches a browser iff none is supplied; it closes the browser iff it launched one successfully, and does so last. With a supplied browser it is just the page visit. A failed launch issues only the launch and yields no chapter. A successful launch issues the launch, then the whole page visit, then the browser close |
| Scraper.ScrapedImagesAbsolute | src/logic/epubLogic.js:56-65 | a chapter scraped from a present root is the serialisation of the content matches after rewriting; with an absolute-only resolver, no `img` in it has a relative `src` |
| Pipeline.WithUrls | src/logic/epubLogic.js:109-112 | one copy of the blog per link, with only `url` replaced by that link |
| Pipeline.TasksForBlog | src/logic/epubLogic.js:107-113 | `min(#links, 5)` tasks, the i-th with the i-th link as `url`; putting the feed address back gives the blog record unchanged |
| Pipeline.AllFeedsResolveIff | src/logic/epubLogic.js:103-105 | the recursive all-feeds-resolve predicate says that no blog's feed fails |
| Pipeline.ExpandTasks | src/logic/epubLogic.js:103-116 | the task list exists iff every blog's feed resolves, and has at most five tasks per blog |
| Pipeline.ExpandTasksFailure | src/logic/epubLogic.js:103-115 | a rejection carries the error of a blog whose feed failed, the first such blog in configuration order |
| Pipeline.ExpandTasksOrigin | src/logic/epubLogic.js:109-112 | every task is a copy of a configured blog that differs from it only in `url` |
| Pipeline.ExpandTasksAppend | src/logic/epubLogic.js:103-116 | the tasks of two lists of blogs are the first list's tasks followed by the second's (configuration order) |
| Pipeline.ExpandTasksCons | src/logic/epubLogic.js:104-116 | a blog whose feed resolves contributes its capped tasks ahead of the later blogs' tasks |
| Pipeline.ExpandOneBlog | src/logic/epubLogic.js:105-113 | one blog contributes exactly its capped task list |
| Pipeline.ScrapeAll | src/logic/epubLogic.js:119-122 | one scrape per task, in task order, each over the supplied shared browser |
| Pipeline.ChaptersOf | src/logic/epubLogic.js:125-130 | at most one chapter per result; a chapter is kept iff some result is that chapter; when all results are defined the chapters are those results in order |
| Pipeline.ChaptersOfAppend | src/logic/epubLogic.js:126-130 | dropping undefined results keeps relative order (it distributes over concatenation) |
| Pipeline.TracePrefixCalls | src/logic/epubLogic.js:45-66 | any prefix of the page-visit trace opens exactly one page and never launches or closes the browser |
| Pipeline.TracePrefixClose | src/logic/epubLogic.js:66 | a prefix of the page-visit trace closes the page only if it is the whole trace |
| Pipeline.VisitCalls | src/logic/epubLogic.js:45-66 | one page visit opens exactly one page, closes it iff fully scraped, and never launches or closes the browser |
| Pipeline.ScrapeAllCalls | src/logic/epubLogic.js:119-122 | over all tasks: one page opened per task, pages closed only by fully scraped tasks, no browser launch or close |
| Pipeline.CallsOfAppend | src/logic/epubLogic.js:119-122 | the calls of consecutive scrapes are the first scrape's calls followed by the second's |
| Pipeline.ScrapeAllAppend | src/logic/epubLogic.js:119-122 | scraping two task lists in sequence is scraping the first, then the second |
| Pipeline.ScrapeAllCallsAppend | src/logic/epubLogic.js:119-122 | the serial loop never interleaves: every call of earlier tasks precedes every call of later ones, and one task's calls are exactly its page visit |
| Pipeline.SharedBrowserCalls | src/logic/epubLogic.js:117-123 | the shared browser is launched first and closed last, each exactly once, with the page visits between |
| Pipeline.PrepareEpub | src/logic/epubLogic.js:102-132 | a failing feed rejects the whole preparation before any browser call. A failed launch rejects with `BrowserLaunchFailed` after the launch call alone. Otherwise the chapters are the defined scrape results in task order, no more than the tasks. The calls are the launch, then every task's scrape calls in task order, then the browser close. So every task gets one page, one launch and one close bracket the run, and pages are closed only by fully scraped tasks |
| Pipeline.OneFeedFailureRejectsAll | src/logic/epubLogic.js:103-115 | one unresolvable feed anywhere leaves the run with no chapters and no browser calls |
| Pipeline.AllScrapesSucceed | src/logic/epubLogic.js:118-131 | when every scrape yields a chapter there is one chapter per task, the i-th being task i's |
| Naming.StripSeparators | src/index.js:33 | no `-`, `:` or `T` is left, every other character occurs as often as in the input, and the result is no longer than the input |
| Naming.StripSeparatorsAppend | src/index.js:33 | deleting separators acts piecewise, so the kept characters keep their order |
| Naming.StripSeparatorsKeeps | src/index.js:33 | a string without separators is unchanged |
| Naming.StripSeparatorsIdempotent | src/index.js:33 | deleting separators twice is deleting them once |
| Naming.FindMillis | src/index.js:34 | finds the leftmost position at or after the start where `\.\d\d\dZ` matches, or reports that there is none |
| Naming.RemoveFirstMillis | src/index.js:34 | deletes the five characters of the leftmost `.dddZ` match, leaves the string unchanged when there is none, and introduces no new characters |
| Naming.Stamp | src/index.js:31-34 | the stamp contains no separator |
| Naming.StripFrom | src/index.js:33 | separator deletion on a suffix keeps or drops its first character |
| Naming.StripRun | src/index.js:33 | a separator-free run passes through separator deletion unchanged |
| Naming.StripIsoInstant | src/index.js:31-33 | deleting separators from `YYYY-MM-DDTHH:mm:ss.sssZ` leaves the fourteen digits followed by `.sssZ` |
| Naming.StampOfIsoInstant | src/index.js:31-34 | for a well-formed instant the stamp is exactly the fourteen digits `YYYYMMDDHHmmss` |
| Naming.SecondsDigitsAgree | src/index.js:31-34 | two instants have the same fourteen digits iff they agree up to the second |
| Naming.EpubTitle | src/index.js:35 | the title is the stamp followed by ` Blog Feed` |
| Naming.FileName | src/index.js:36 | the file name is the stamp followed by `_BlogFeed.epub` |
| Naming.OutputPath | src/index.js:37 | the path is `./out/` followed by the file name |
| Naming.NamesRoundTrip | src/index.js:35-37 | the title and file name are the stamp followed by ` Blog Feed` and `_BlogFeed.epub`; the stamp and the file name are recoverable from the file name and the path under `./out/` |
| Naming.OutputPathCollision | src/index.js:31-37 | two runs write the same output path iff their instants agree up to the second |
| Runner.EnvOr | src/index.js:13-14 | an environment value is empty iff the variable is unset or empty, and otherwise is the variable's value |
| Runner.SendEpub | src/index.js:10-27 | provider, user, password and recipients are the environment's values, or empty when unset; the one attachment is the given file name and path with type `application/epub` |
| Runner.Run | src/index.js:29-41 | prepares first; stops with the single step iff preparation rejects; otherwise exports the prepared chapters under the stamp's title and output path; completes iff preparation and export both resolved, and then sends exactly `sendEpub(fileName, outputPath)`: the environment's mail settings and the exported path under its file name |
| Runner.RunOrder | src/index.js:29-41 | a run prepares first and stops if preparation rejects; otherwise it exports the prepared chapters under the stamp's title and path, and completes iff the export resolved |
| Runner.MailedFileIsExportTarget | src/index.js:16-20 | the single attachment has the path given to the export step, a file name that is that path's last component, and content type `application/epub` |
| Runner.MailDefaults | src/index.js:10-27 | provider, user, password and recipients default to the empty string when unset; the attachment list is the one file |

## Left out

- Puppeteer itself is not modelled: launch options, page creation, navigation, selector waiting and in-page evaluation. Its observable outcome is the `PageOutcome` input. The two-minute navigation timeout appears only as the value of the `SetNavigationTimeout` call.
- Scraper.VisitPage: the title `$eval` (src/logic/epubLogic.js:51-54) rejecting after its wait succeeded, for instance because the element was detached or the execution context destroyed in between, is not a separate outcome. Neither is the image-rewriting `$$eval` (line 13) rejecting for a reason other than an unresolvable source. Each of those would end the visit after 5 or 8 calls with no chapter. The content `$$eval` (line 61) is not preceded by a wait, and its rejection is modelled: it is `Rendered` with `contentRead` false.
- Scraper.VisitPage: a page's behaviour is a function of its task (`World.render`). State the shared browser carries from one task to the next, such as the pages left open or cookies, does not influence later pages in the model.
- The HTTP fetch and the XML parser are not modelled. Their combined outcome is the `FeedResponse` input. `fetch` does not reject on a non-2xx status: such a body is parsed like any other, and its outcome is whatever that parse gives. A single-item feed parsed into an object rather than an array is parser behaviour and is folded into `MissingItems`.
- `new URL(href, base)` is the resolver parameter. The WHATWG URL Standard's parser (section 4.4 of that standard) is not re-derived.
- Markup.OuterHtml: newer browsers also escape `<` and `>` in attribute values. The model escapes only `&`, no-break space and `"`, so `data` differs from such a browser's `outerHTML` wherever a `src` contains `<` or `>`.
- HTML is modelled as token streams, not a DOM. The article root is its content matches plus the rest of its markup. Matches nested inside other matches are serialised independently.
- Images.UpdateImages: an `img` token carries only its `src`, and the model's serialisation drops the element's other attributes. The code rewrites only the `src` property (src/logic/epubLogic.js:16-18). It leaves other URL-bearing attributes relative, such as `srcset`, `<source srcset>` inside `<picture>`, and lazy-load attributes like `data-src`, and `outerHTML` carries them into the chapter.
- Pipeline.ExpandTasks: when several feeds fail, the model reports the first failing blog in configuration order. `Promise.all` rejects with whichever rejection settles first in time, which the model cannot observe.
- `generateEpub` (directory creation and the `epub-gen` writer) is I/O. Its outcome is the `exported` flag of `Runner.Run`.
- Runner.Run: `exported` only means that `generateEpub` did not reject. That function awaits the object `new Epub(options)` returns, not a promise of the write (src/logic/epubLogic.js:152). Unless that object is thenable, which is `epub-gen` behaviour outside this model, the mail can be sent before the file exists, and a failed write does not reject `run`. The model does not promise that the attached file was written.
- The mail transport (`src/logic/emailLogic.js`) is not part of this model. Delivery is fired without being awaited, so its outcome is not modelled. `Runner.SendEpub` builds the arguments passed to it.
- `src/logic/fileLogic.js` (HTTPS download helpers) is not part of this model. The pipeline does not call it.
- The root `index.js` is a superseded duplicate entry point and is not part of this model. Its concurrent scraping over a browser that each scrape closes is a resource race, not statable logic.
- Logging, `dotenv.config()` and reading the clock are left out. The ISO instant is a parameter. Years outside 0000-9999, where `toISOString` uses the extended `+YYYYYY` form, are covered only by the general stamp contracts.
- Pipeline.OneFeedFailureRejectsAll: one failing feed rejects the whole preparation before the browser is launched. There is no per-blog isolation of feed failures.
- Scraper.VisitPage: the page is closed only on the full success path (src/logic/epubLogic.js:66). It stays open after the `No content.` return and after an exception.
- Scraper.ContentData: the empty-content fallback is `No conent`, spelt as in the code. The missing-root sentinel is `No content.`.
- Scraper.ScrapeArticle: a close is an issued call whose outcome is not observed. The model takes `ClosePage` and `CloseBrowser` to succeed. In the code, the page close (line 66) is not awaited, so a rejected close becomes an unhandled rejection after the result is returned. The awaited `browser?.close()` in the `finally` block (line 76) would turn the scrape into a rejection if closing a self-launched browser failed.
- Pipeline.PrepareEpub: the shared browser's close (src/logic/epubLogic.js:123) is an issued call whose outcome is not observed. It is not awaited, so a failed close becomes an unhandled rejection after the chapters are returned.
- Feed.Links: a feed item's `link` is a string. An RSS 2.0 item without `<link>` gives `undefined`, and that becomes the task's `url`. `page.goto(undefined)` then rejects, so such a task's page outcome is `NavigationFailed`.

=== FILE: blog.dfy ===
/** The records that flow through the ingestion pipeline. */
module Blog {

  /**
   * One configured blog: its display name, its feed address and the three CSS
   * selectors that locate the title, the article root and the content
   * elements of any article page from that blog. An article task is the same
   * record with `url` replaced by the article's address.
   */
  datatype BlogSource = BlogSource(
    name: string,
    url: string,
    titleSelector: string,
    articleSelector: string,
    contentSelector: string)

  /** One e-book chapter: the article title and its HTML body. */
  datatype Chapter = Chapter(title: string, data: string)
}

=== FILE: feed.dfy ===
/**
 * `getArticleLinks`: the article addresses announced by one RSS feed. The
 * HTTP fetch and the XML parser are outside the model; their combined
 * outcome is the input `FeedResponse`.
 */
module Feed {
  import opened Wrappers

  /** One `rss.channel.item` entry as the parser returns it. */
  datatype FeedItem = FeedItem(title: string, link: string, description: string, pubDate: string)

  /** What fetching and parsing one feed address produced. */
  datatype FeedResponse =
    | FetchFailed                 // `fetch` rejected (network, DNS, TLS)
    | ParseFailed                 // the parser threw on the body
    | MissingItems                // `rss.channel.item` is absent or not an array
    | Items(items: seq<FeedItem>) // the item array, in document order

  /** Why resolving a feed rejected. */
  datatype FeedError = FetchError | ParseError | ShapeError

  /** The `link` of each item, in item order. */
  function Links(items: seq<FeedItem>): (links: seq<string>)
    ensures |links| == |items|
    ensures forall i :: 0 <= i < |items| ==> links[i] == items[i].link
  {
    if |items| == 0 then [] else [items[0].link] + Links(items[1..])
  }

  /**
   * `getArticleLinks(rss)`: the item links of the feed, or the error that
   * made the promise reject.
   */
  function GetArticleLinks(response: FeedResponse): (r: Result<seq<string>, FeedError>)
    ensures r.Success? <==> response.Items?
    ensures response.Items? ==> |r.value| == |response.items|
    ensures response.Items? ==> forall i :: 0 <= i < |response.items| ==> r.value[i] == response.items[i].link
    ensures response.FetchFailed? ==> r == Failure(FetchError)
    ensures response.ParseFailed? ==> r == Failure(ParseError)
    ensures response.MissingItems? ==> r == Failure(ShapeError)
  {
    match response
    case FetchFailed => Failure(FetchError)
    case ParseFailed => Failure(ParseError)
    case MissingItems => Failure(ShapeError)
    case Items(items) => Success(Links(items))
  }

  /** Link projection commutes with concatenating item lists. */
  lemma {:induction false} LinksAppend(a: seq<FeedItem>, b: seq<FeedItem>)
    ensures Links(a + b) == Links(a) + Links(b)
    decreases |a|
  {
    if |a| == 0 {
      assert a + b == b;
    } else {
      assert (a + b)[1..] == a[1..] + b;
      LinksAppend(a[1..], b);
    }
  }
}

=== FILE: images.dfy ===
/**
 * `updateImages`: every `img` under the article root has its `src` replaced by
 * the URL resolved against the article's own address.
 */
module Images {
  import opened Wrappers
  import opened Markup

  /**
   * `new URL(href, base).toString()`, left uninterpreted: `None` when the
   * constructor throws (the reference cannot be parsed against the base).
   * `href` is an image's `src` property, which the page has usually made
   * absolute already, so the article address matters only for what is left
   * relative.
   */
  type Resolver = (string, string) -> Option<string>

  /**
   * The subtree matched by the article selector: the elements matched by the
   * content selector, in document order, and the remaining markup of the root
   * (which carries the images that no content element contains).
   */
  datatype ArticleRoot = ArticleRoot(content: seq<seq<Token>>, outside: seq<Token>)

  /** Every image in `ts` has a source that resolves against `base`. */
  predicate Resolves(ts: seq<Token>, base: string, resolve: Resolver)
  {
    forall i :: 0 <= i < |ts| && ts[i].Img? ==> resolve(ts[i].src, base).Some?
  }

  /** Every image of `root`, inside or outside the content matches, resolves. */
  predicate RootResolves(root: ArticleRoot, base: string, resolve: Resolver)
  {
    && (forall k :: 0 <= k < |root.content| ==> Resolves(root.content[k], base, resolve))
    && Resolves(root.outside, base, resolve)
  }

  /**
   * `ts'` is `ts` with each image source replaced by its resolution and every
   * other token left as it was.
   */
  predicate RewrittenFrom(ts': seq<Token>, ts: seq<Token>, base: string, resolve: Resolver)
  {
    && |ts'| == |ts|
    && forall i :: 0 <= i < |ts| ==>
         if ts[i].Img? then
           resolve(ts[i].src, base).Some? && ts'[i] == Img(resolve(ts[i].src, base).value)
         else ts'[i] == ts[i]
  }

  /** One token with its image source resolved; `None` if resolution throws. */
  function RewriteToken(t: Token, base: string, resolve: Resolver): (r: Option<Token>)
    ensures r.Some? <==> !t.Img? || resolve(t.src, base).Some?
    ensures r.Some? && t.Img? ==> r.value == Img(resolve(t.src, base).value)
    ensures r.Some? && !t.Img? ==> r.value == t
  {
    match t
    case Img(src) =>
      (match resolve(src, base)
       case None => None
       case Some(abs) => Some(Img(abs)))
    case _ => Some(t)
  }

  /** Rewrites the image sources of one token stream; `None` if any throws. */
  function RewriteTokens(ts: seq<Token>, base: string, resolve: Resolver): (r: Option<seq<Token>>)
    ensures r.Some? <==> Resolves(ts, base, resolve)
    ensures r.Some? ==> RewrittenFrom(r.value, ts, base, resolve)
  {
    if |ts| == 0 then Some([])
    else
      var head := RewriteToken(ts[0], base, resolve);
      var tail := RewriteTokens(ts[1..], base, resolve);
      assert forall i :: 1 <= i < |ts| ==> ts[i] == ts[1..][i - 1];
      if head.None? || tail.None? then None
      else Some([head.value] + tail.value)
  }

  /** Rewrites each content match in turn; `None` if any image throws. */
  function RewriteEach(matches: seq<seq<Token>>, base: string, resolve: Resolver): (r: Option<seq<seq<Token>>>)
    ensures r.Some? <==> forall k :: 0 <= k < |matches| ==> Resolves(matches[k], base, resolve)
    ensures r.Some? ==> |r.value| == |matches|
    ensures r.Some? ==> forall k :: 0 <= k < |matches| ==> RewrittenFrom(r.value[k], matches[k], base, resolve)
  {
    if |matches| == 0 then Some([])
    else
      match RewriteTokens(matches[0], base, resolve)
      case None => None
      case Some(m) =>
        match RewriteEach(matches[1..], base, resolve)
        case None => None
        case Some(rest) => Some([m] + rest)
  }

  /**
   * `updateImages(url, article)`: rewrites every image of the root against
   * `base`. The browser-side callback throws on the first source `new URL`
   * rejects, which is modelled as `None`.
   */
  function UpdateImages(root: ArticleRoot, base: string, resolve: Resolver): (r: Option<ArticleRoot>)
    ensures r.Some? <==> RootResolves(root, base, resolve)
    ensures r.Some? ==> |r.value.content| == |root.content|
    ensures r.Some? ==> forall k :: 0 <= k < |root.content| ==>
                          RewrittenFrom(r.value.content[k], root.content[k], base, resolve)
    ensures r.Some? ==> RewrittenFrom(r.value.outside, root.outside, base, resolve)
  {
    match RewriteEach(root.content, base, resolve)
    case None => None
    case Some(content) =>
      match RewriteTokens(root.outside, base, resolve)
      case None => None
      case Some(outside) => Some(ArticleRoot(content, outside))
  }

  /**
   * When every URL the resolver produces is absolute, a rewritten stream
   * carries only absolute image sources.
   */
  lemma RewrittenImagesAbsolute(ts': seq<Token>, ts: seq<Token>, base: string, resolve: Resolver,
                                absolute: string -> bool)
    requires RewrittenFrom(ts', ts, base, resolve)
    requires forall h, b :: resolve(h, b).Some? ==> absolute(resolve(h, b).value)
    ensures forall i :: 0 <= i < |ts'| && ts'[i].Img? ==> absolute(ts'[i].src)
  {
  }
}

=== FILE: markup.dfy ===
/**
 * A page fragment as a stream of markup tokens, its serialisation to
 * `outerHTML`, and JavaScript's `Array.prototype.join('\n')`.
 */
module Markup {

  /**
   * One token of serialised markup; an `img` element is a single token. Its
   * `src` is the element's `src` property as the page reports it: the
   * attribute already resolved against the document's base URL (which a
   * redirect or a `<base href>` may have changed), or "" when the attribute
   * is missing. An `img` token carries only that `src`: its other
   * attributes (`srcset`, lazy-load `data-src` and the like) are not modelled.
   */
  datatype Token =
    | Open(tag: string)
    | Close(tag: string)
    | Text(text: string)
    | Img(src: string)

  /** The escape of one character in an attribute value. */
  function EscapeAttrChar(c: char): string
  {
    if c == '&' then "&amp;"
    else if c == '\U{A0}' then "&nbsp;"
    else if c == '"' then "&quot;"
    else [c]
  }

  /**
   * An attribute value as `outerHTML` writes it (the HTML serialisation
   * algorithm's attribute mode): `&`, no-break space and `"` become
   * character references; every other character is kept.
   */
  function EscapeAttr(s: string): (e: string)
    ensures |e| >= |s|
    ensures forall i :: 0 <= i < |e| ==> e[i] != '"' && e[i] != '\U{A0}'
  {
    if |s| == 0 then "" else EscapeAttrChar(s[0]) + EscapeAttr(s[1..])
  }

  /** Reads back an escaped attribute value: the three references become their characters. */
  function UnescapeAttr(e: string): string
  {
    if |e| == 0 then ""
    else if e[0] != '&' then [e[0]] + UnescapeAttr(e[1..])
    else if |e| >= 5 && e[..5] == "&amp;" then "&" + UnescapeAttr(e[5..])
    else if |e| >= 6 && e[..6] == "&nbsp;" then "\U{A0}" + UnescapeAttr(e[6..])
    else if |e| >= 6 && e[..6] == "&quot;" then "\"" + UnescapeAttr(e[6..])
    else [e[0]] + UnescapeAttr(e[1..])
  }

  /** Reading back `&nbsp;` followed by anything. */
  lemma UnescapeNbsp(rest: string)
    ensures UnescapeAttr("&nbsp;" + rest) == "\U{A0}" + UnescapeAttr(rest)
  {
    var e := "&nbsp;" + rest;
    assert e[..6] == "&nbsp;" && e[6..] == rest;
    assert e[..5][1] == 'n' != "&amp;"[1];
  }

  /** Reading back `&quot;` followed by anything. */
  lemma UnescapeQuot(rest: string)
    ensures UnescapeAttr("&quot;" + rest) == "\"" + UnescapeAttr(rest)
  {
    var e := "&quot;" + rest;
    assert e[..6] == "&quot;" && e[6..] == rest;
    assert e[..5][1] == 'q' != "&amp;"[1];
    assert e[..6][1] == 'q' != "&nbsp;"[1];
  }

  /** Reading back one escaped character, followed by anything. */
  lemma UnescapeAttrChar(c: char, rest: string)
    ensures UnescapeAttr(EscapeAttrChar(c) + rest) == [c] + UnescapeAttr(rest)
  {
    if c == '&' {
      var e := "&amp;" + rest;
      assert e[..5] == "&amp;" && e[5..] == rest;
    } else if c == '\U{A0}' {
      UnescapeNbsp(rest);
    } else if c == '"' {
      UnescapeQuot(rest);
    } else {
      var e := [c] + rest;
      assert e[0] == c && e[1..] == rest;
    }
  }

  /** Escaping loses nothing: the escaped value reads back as the original. */
  lemma {:induction false} EscapeAttrRoundTrip(s: string)
    ensures UnescapeAttr(EscapeAttr(s)) == s
    decreases |s|
  {
    if |s| > 0 {
      UnescapeAttrChar(s[0], EscapeAttr(s[1..]));
      EscapeAttrRoundTrip(s[1..]);
      assert s == [s[0]] + s[1..];
    }
  }

  /** The markup of one token. */
  function Render(t: Token): (s: string)
    ensures !t.Text? ==> |s| > 0 && s[0] == '<'
    ensures t.Text? ==> s == t.text
  {
    match t
    case Open(tag) => "<" + tag + ">"
    case Close(tag) => "</" + tag + ">"
    case Text(text) => text
    case Img(src) => "<img src=\"" + EscapeAttr(src) + "\">"
  }

  /** The `outerHTML` of one matched element, given as its token stream. */
  function OuterHtml(ts: seq<Token>): (s: string)
    ensures |ts| > 0 && !ts[0].Text? ==> |s| > 0 && s[0] == '<'
    ensures |ts| == 0 ==> s == ""
  {
    if |ts| == 0 then "" else Render(ts[0]) + OuterHtml(ts[1..])
  }

  /** The `outerHTML` of every matched element, in document order. */
  function OuterHtmls(matches: seq<seq<Token>>): (hs: seq<string>)
    ensures |hs| == |matches|
    ensures forall i :: 0 <= i < |matches| ==> hs[i] == OuterHtml(matches[i])
  {
    if |matches| == 0 then [] else [OuterHtml(matches[0])] + OuterHtmls(matches[1..])
  }

  /** The sum of the lengths of `parts`. */
  function TotalLength(parts: seq<string>): nat
  {
    if |parts| == 0 then 0 else |parts[0]| + TotalLength(parts[1..])
  }

  /**
   * `parts.join('\n')`: the parts in order with one newline between
   * neighbours; the empty list joins to the empty string.
   */
  function JoinLines(parts: seq<string>): (r: string)
    ensures |parts| > 0 ==> |r| == TotalLength(parts) + |parts| - 1
    ensures r == "" <==> |parts| <= 1 && forall i :: 0 <= i < |parts| ==> parts[i] == ""
    ensures |parts| > 0 && |parts[0]| > 0 ==> |r| > 0 && r[0] == parts[0][0]
  {
    if |parts| == 0 then ""
    else if |parts| == 1 then parts[0]
    else parts[0] + "\n" + JoinLines(parts[1..])
  }

  /** Joining one more part appends a newline and that part. */
  lemma {:induction false} JoinLinesSnoc(parts: seq<string>, last: string)
    requires |parts| > 0
    ensures JoinLines(parts + [last]) == JoinLines(parts) + "\n" + last
    decreases |parts|
  {
    if |parts| == 1 {
      assert parts + [last] == [parts[0], last];
    } else {
      assert (parts + [last])[1..] == parts[1..] + [last];
      JoinLinesSnoc(parts[1..], last);
    }
  }
}

=== FILE: naming.dfy ===
/**
 * The run-level names: the compact timestamp derived from an ISO-8601
 * instant, and the e-book title, file name and output path built from it.
 */
module Naming {
  import opened Wrappers

  /** The characters the first replacement deletes: the class `[-:T]`. */
  predicate IsSeparator(c: char)
  {
    c == '-' || c == ':' || c == 'T'
  }

  /** The class `\d`: an ASCII digit. */
  predicate IsDigit(c: char)
  {
    '0' <= c <= '9'
  }

  /** `.replace(/[-:T]/g, '')`: every separator deleted. */
  function StripSeparators(s: string): (r: string)
    ensures |r| <= |s|
    ensures forall i :: 0 <= i < |r| ==> !IsSeparator(r[i])
    ensures forall c {:trigger multiset(r)[c]} :: !IsSeparator(c) ==> multiset(r)[c] == multiset(s)[c]
  {
    if |s| == 0 then ""
    else
      assert s == [s[0]] + s[1..];
      (if IsSeparator(s[0]) then "" else [s[0]]) + StripSeparators(s[1..])
  }

  /** Deleting separators acts piecewise: the kept characters stay in their order. */
  lemma {:induction false} StripSeparatorsAppend(a: string, b: string)
    ensures StripSeparators(a + b) == StripSeparators(a) + StripSeparators(b)
    decreases |a|
  {
    if |a| == 0 {
      assert a + b == b;
    } else {
      assert (a + b)[0] == a[0];
      assert (a + b)[1..] == a[1..] + b;
      StripSeparatorsAppend(a[1..], b);
    }
  }

  /** A string with no separator is left as it is. */
  lemma {:induction false} StripSeparatorsKeeps(s: string)
    requires forall i :: 0 <= i < |s| ==> !IsSeparator(s[i])
    ensures StripSeparators(s) == s
    decreases |s|
  {
    if |s| > 0 {
      StripSeparatorsKeeps(s[1..]);
    }
  }

  /** Deleting twice deletes nothing more. */
  lemma StripSeparatorsIdempotent(s: string)
    ensures StripSeparators(StripSeparators(s)) == StripSeparators(s)
  {
    StripSeparatorsKeeps(StripSeparators(s));
  }

  /** The pattern `\.\d\d\dZ` matches at position `i`. */
  predicate MillisAt(s: string, i: int)
  {
    && 0 <= i && i + 5 <= |s|
    && s[i] == '.' && IsDigit(s[i + 1]) && IsDigit(s[i + 2]) && IsDigit(s[i + 3]) && s[i + 4] == 'Z'
  }

  /** The leftmost match of `\.\d\d\dZ` at or after `from`. */
  function FindMillis(s: string, from: nat): (k: Option<nat>)
    ensures k.Some? ==> from <= k.value && MillisAt(s, k.value)
    ensures k.Some? ==> forall j :: from <= j < k.value ==> !MillisAt(s, j)
    ensures k.None? ==> forall j :: from <= j ==> !MillisAt(s, j)
    decreases |s| - from
  {
    if from + 5 > |s| then None
    else if MillisAt(s, from) then Some(from)
    else FindMillis(s, from + 1)
  }

  /** `.replace(/\.\d\d\dZ/, '')`: the leftmost match deleted, if there is one. */
  function RemoveFirstMillis(s: string): (r: string)
    ensures (forall j :: !MillisAt(s, j)) ==> r == s
    ensures forall i :: MillisAt(s, i) && (forall j :: 0 <= j < i ==> !MillisAt(s, j)) ==>
              r == s[..i] + s[i + 5..]
    ensures forall i :: 0 <= i < |r| ==> r[i] in s
  {
    var found := FindMillis(s, 0);
    if found.None? then s
    else
      var i := found.value;
      var r := s[..i] + s[i + 5..];
      assert forall j :: 0 <= j < |r| ==> r[j] == (if j < i then s[j] else s[j + 5]);
      r
  }

  /** The compact timestamp of an ISO instant: separators deleted, then the millisecond suffix. */
  function Stamp(iso: string): (stamp: string)
    ensures forall i :: 0 <= i < |stamp| ==> !IsSeparator(stamp[i])
  {
    RemoveFirstMillis(StripSeparators(iso))
  }

  /** `Date.prototype.toISOString()` output: `YYYY-MM-DDTHH:mm:ss.sssZ`. */
  predicate IsIsoInstant(s: string)
  {
    && |s| == 24
    && s[4] == '-' && s[7] == '-' && s[10] == 'T' && s[13] == ':' && s[16] == ':'
    && s[19] == '.' && s[23] == 'Z'
    && forall i :: 0 <= i < 24 && !IsPunctuationPosition(i) ==> IsDigit(s[i])
  }

  /** The positions of `-`, `T`, `:`, `.` and `Z` in an ISO instant. */
  predicate IsPunctuationPosition(i: int)
  {
    i == 4 || i == 7 || i == 10 || i == 13 || i == 16 || i == 19 || i == 23
  }

  /** The digit fields of an instant up to the second, in order. */
  function SecondsDigits(s: string): (d: string)
    requires |s| >= 19
  {
    s[0..4] + s[5..7] + s[8..10] + s[11..13] + s[14..16] + s[17..19]
  }

  /** Deleting separators from a suffix, one character at a time. */
  lemma StripFrom(s: string, a: int)
    requires 0 <= a < |s|
    ensures StripSeparators(s[a..]) == (if IsSeparator(s[a]) then "" else [s[a]]) + StripSeparators(s[a + 1..])
  {
    assert s[a..][0] == s[a];
    assert s[a..][1..] == s[a + 1..];
  }

  /** A run without separators passes through unchanged. */
  lemma StripRun(s: string, a: int, b: int)
    requires 0 <= a <= b <= |s|
    requires forall i :: a <= i < b ==> !IsSeparator(s[i])
    ensures StripSeparators(s[a..]) == s[a..b] + StripSeparators(s[b..])
  {
    assert s[a..] == s[a..b] + s[b..];
    StripSeparatorsAppend(s[a..b], s[b..]);
    StripSeparatorsKeeps(s[a..b]);
  }

  /** A separator-free field followed by a separator: the field is kept, the separator dropped. */
  lemma StripField(s: string, a: int, b: int)
    requires 0 <= a <= b < |s|
    requires forall i :: a <= i < b ==> !IsSeparator(s[i])
    requires IsSeparator(s[b])
    ensures StripSeparators(s[a..]) == s[a..b] + StripSeparators(s[b + 1..])
  {
    StripRun(s, a, b);
    StripFrom(s, b);
  }

  /** The fields of an instant, regrouped as its digits followed by `.sssZ`. */
  lemma IsoFields(s: string)
    requires |s| == 24
    ensures s[0..4] + (s[5..7] + (s[8..10] + (s[11..13] + (s[14..16] + s[17..24]))))
            == SecondsDigits(s) + s[19..24]
  {
    assert s[17..24] == s[17..19] + s[19..24];
  }

  /** Deleting the separators of an instant leaves its digits, then `.sssZ`. */
  lemma StripIsoInstant(s: string)
    requires IsIsoInstant(s)
    ensures StripSeparators(s) == SecondsDigits(s) + s[19..24]
  {
    StripRun(s, 17, 24);
    assert s[24..] == [];
    StripField(s, 14, 16);
    StripField(s, 11, 13);
    StripField(s, 8, 10);
    StripField(s, 5, 7);
    StripField(s, 0, 4);
    assert s[0..] == s;
    IsoFields(s);
  }

  /** For a well-formed instant the stamp is its fourteen digits `YYYYMMDDHHmmss`. */
  lemma StampOfIsoInstant(s: string)
    requires IsIsoInstant(s)
    ensures Stamp(s) == SecondsDigits(s)
    ensures |Stamp(s)| == 14
    ensures forall i :: 0 <= i < 14 ==> IsDigit(Stamp(s)[i])
  {
    StripIsoInstant(s);
    var t := StripSeparators(s);
    var d := SecondsDigits(s);
    assert |t| == 19;
    assert forall j :: 0 <= j < 14 ==> IsDigit(t[j]) by {
      assert forall j :: 0 <= j < 14 ==> t[j] == d[j];
    }
    assert MillisAt(t, 14);
    assert forall j :: 0 <= j < 14 ==> !MillisAt(t, j);
    assert t[..14] + t[19..] == d;
  }

  /** Two instants have the same digit fields exactly when they agree up to the second. */
  lemma SecondsDigitsAgree(s1: string, s2: string)
    requires IsIsoInstant(s1) && IsIsoInstant(s2)
    ensures SecondsDigits(s1) == SecondsDigits(s2) <==> s1[..19] == s2[..19]
  {
    var d1, d2 := SecondsDigits(s1), SecondsDigits(s2);
    if d1 == d2 {
      forall i | 0 <= i < 19
        ensures s1[i] == s2[i]
      {
        if i < 4 {
          assert s1[i] == d1[i] && s2[i] == d2[i];
        } else if 5 <= i < 7 {
          assert s1[i] == d1[i - 1] && s2[i] == d2[i - 1];
        } else if 8 <= i < 10 {
          assert s1[i] == d1[i - 2] && s2[i] == d2[i - 2];
        } else if 11 <= i < 13 {
          assert s1[i] == d1[i - 3] && s2[i] == d2[i - 3];
        } else if 14 <= i < 16 {
          assert s1[i] == d1[i - 4] && s2[i] == d2[i - 4];
        } else if 17 <= i < 19 {
          assert s1[i] == d1[i - 5] && s2[i] == d2[i - 5];
        }
      }
      assert s1[..19] == s2[..19];
    }
    if s1[..19] == s2[..19] {
      assert forall i :: 0 <= i < 19 ==> s1[i] == s1[..19][i] && s2[i] == s2[..19][i];
      assert d1 == d2;
    }
  }

  /** The text appended to the stamp to make the e-book title. */
  const TitleSuffix: string := " Blog Feed"

  /** The text appended to the stamp to make the e-book file name. */
  const FileSuffix: string := "_BlogFeed.epub"

  /** The directory the e-book is written to, as a path prefix. */
  const OutputDir: string := "./out/"

  /** `${dateTimeStamp} Blog Feed`. */
  function EpubTitle(stamp: string): (title: string)
    ensures |title| == |stamp| + |TitleSuffix|
    ensures title[..|stamp|] == stamp && title[|stamp|..] == TitleSuffix
  {
    stamp + TitleSuffix
  }

  /** `${dateTimeStamp}_BlogFeed.epub`. */
  function FileName(stamp: string): (name: string)
    ensures |name| == |stamp| + |FileSuffix|
    ensures name[..|stamp|] == stamp && name[|stamp|..] == FileSuffix
  {
    stamp + FileSuffix
  }

  /** `./out/${fileName}`. */
  function OutputPath(fileName: string): (path: string)
    ensures |path| == |OutputDir| + |fileName|
    ensures path[..|OutputDir|] == OutputDir && path[|OutputDir|..] == fileName
  {
    OutputDir + fileName
  }

  /** The stamp a file name was built from. */
  function StampOfFileName(fileName: string): string
    requires |fileName| >= |FileSuffix|
  {
    fileName[..|fileName| - |FileSuffix|]
  }

  /** The file name an output path was built from. */
  function FileNameOfPath(path: string): string
    requires |path| >= |OutputDir|
  {
    path[|OutputDir|..]
  }

  /**
   * The names are recoverable: the title and the file name start with the
   * stamp and end with their fixed suffixes, and the output path is the file
   * name inside the output directory.
   */
  lemma NamesRoundTrip(stamp: string)
    ensures EpubTitle(stamp)[..|stamp|] == stamp && EpubTitle(stamp)[|stamp|..] == TitleSuffix
    ensures StampOfFileName(FileName(stamp)) == stamp
    ensures FileName(stamp)[|stamp|..] == FileSuffix
    ensures FileNameOfPath(OutputPath(FileName(stamp))) == FileName(stamp)
    ensures OutputPath(FileName(stamp))[..|OutputDir|] == OutputDir
  {
  }

  /**
   * Two runs write to the same output path exactly when their instants agree
   * up to the second: the millisecond part never reaches the name.
   */
  lemma OutputPathCollision(s1: string, s2: string)
    requires IsIsoInstant(s1) && IsIsoInstant(s2)
    ensures OutputPath(FileName(Stamp(s1))) == OutputPath(FileName(Stamp(s2))) <==> s1[..19] == s2[..19]
  {
    StampOfIsoInstant(s1);
    StampOfIsoInstant(s2);
    SecondsDigitsAgree(s1, s2);
    var p1, p2 := OutputPath(FileName(Stamp(s1))), OutputPath(FileName(Stamp(s2)));
    if p1 == p2 {
      NamesRoundTrip(Stamp(s1));
      NamesRoundTrip(Stamp(s2));
      assert FileName(Stamp(s1)) == FileNameOfPath(p1) == FileNameOfPath(p2) == FileName(Stamp(s2));
      assert Stamp(s1) == StampOfFileName(FileName(Stamp(s1))) == StampOfFileName(FileName(Stamp(s2))) == Stamp(s2);
    }
  }
}

=== FILE: pipeline.dfy ===
/**
 * `prepareEpub`: every configured blog's feed expanded into article tasks,
 * the tasks scraped one after another over one shared browser, and the
 * chapters that came back collected in task order.
 */
module Pipeline {
  import opened Wrappers
  import opened Blog
  import opened Feed
  import opened Images
  import opened Scraper

  /** How many links of each feed become tasks. */
  const MaxArticlesPerBlog: nat := 5

  /**
   * Everything outside the program that the pipeline observes: the outcome
   * of fetching and parsing each feed address, what each task's page does,
   * URL resolution, and whether launching the shared browser succeeds.
   */
  datatype World = World(
    fetch: string -> FeedResponse,
    render: BlogSource -> PageOutcome,
    resolve: Resolver,
    launchOk: bool)

  /**
   * Why `prepareEpub` rejected. The code rejects with the raw error that
   * `fetch`, the parser or the item projection threw; the blog name in
   * `FeedFailed` is the model's label for where it came from and is not part
   * of that error.
   */
  datatype PrepareError = FeedFailed(blog: string, error: FeedError) | BrowserLaunchFailed

  /** The settled value of `prepareEpub` and the browser calls made meanwhile. */
  datatype Prepared = Prepared(outcome: Result<seq<Chapter>, PrepareError>, calls: seq<Call>)

  function Min(a: int, b: int): int
  {
    if a <= b then a else b
  }

  /** One copy of `b` per link, each with only `url` replaced by that link. */
  function WithUrls(b: BlogSource, links: seq<string>): (tasks: seq<BlogSource>)
    ensures |tasks| == |links|
    ensures forall i :: 0 <= i < |links| ==> tasks[i] == b.(url := links[i])
  {
    if |links| == 0 then [] else [b.(url := links[0])] + WithUrls(b, links[1..])
  }

  /**
   * The tasks of one blog: the first five links, each in a fresh copy of the
   * blog record whose `url` is the link. Putting the feed address back into
   * a task gives the blog record unchanged: nothing but `url` differs.
   */
  function TasksForBlog(b: BlogSource, links: seq<string>): (tasks: seq<BlogSource>)
    ensures |tasks| == Min(|links|, MaxArticlesPerBlog)
    ensures forall i :: 0 <= i < |tasks| ==> tasks[i].url == links[i]
    ensures forall i :: 0 <= i < |tasks| ==> tasks[i].(url := b.url) == b
  {
    WithUrls(b, links[..Min(|links|, MaxArticlesPerBlog)])
  }

  /** The feed of `b` yields a link list. */
  predicate FeedResolves(b: BlogSource, fetch: string -> FeedResponse)
  {
    GetArticleLinks(fetch(b.url)).Success?
  }

  /** The feed of every blog in `blogs` yields a link list. */
  predicate AllFeedsResolve(blogs: seq<BlogSource>, fetch: string -> FeedResponse)
  {
    |blogs| == 0 || (FeedResolves(blogs[0], fetch) && AllFeedsResolve(blogs[1..], fetch))
  }

  /** `AllFeedsResolve` says that no blog's feed fails. */
  lemma {:induction false} AllFeedsResolveIff(blogs: seq<BlogSource>, fetch: string -> FeedResponse)
    ensures AllFeedsResolve(blogs, fetch) <==> forall i :: 0 <= i < |blogs| ==> FeedResolves(blogs[i], fetch)
    decreases |blogs|
  {
    if |blogs| > 0 {
      AllFeedsResolveIff(blogs[1..], fetch);
      assert forall j :: 1 <= j < |blogs| ==> blogs[j] == blogs[1..][j - 1];
    }
  }

  /**
   * `Promise.all` over the blogs followed by `flat()`: the per-blog task lists
   * concatenated in configuration order, or a rejection as soon as any one
   * feed fails. When several fail, the first in configuration order is
   * reported.
   */
  function ExpandTasks(blogs: seq<BlogSource>, fetch: string -> FeedResponse): (r: Result<seq<BlogSource>, PrepareError>)
    ensures r.Success? <==> AllFeedsResolve(blogs, fetch)
    ensures r.Success? ==> |r.value| <= MaxArticlesPerBlog * |blogs|
  {
    if |blogs| == 0 then Success([])
    else
      match GetArticleLinks(fetch(blogs[0].url))
      case Failure(e) => Failure(FeedFailed(blogs[0].name, e))
      case Success(links) =>
        match ExpandTasks(blogs[1..], fetch)
        case Failure(e) => Failure(e)
        case Success(rest) => Success(TasksForBlog(blogs[0], links) + rest)
  }

  /** A rejection names the first blog, in configuration order, whose feed failed, with that feed's error. */
  lemma {:induction false} ExpandTasksFailure(blogs: seq<BlogSource>, fetch: string -> FeedResponse)
    requires ExpandTasks(blogs, fetch).Failure?
    ensures exists i :: 0 <= i < |blogs| && !FeedResolves(blogs[i], fetch)
              && (forall j :: 0 <= j < i ==> FeedResolves(blogs[j], fetch))
              && ExpandTasks(blogs, fetch).error == FeedFailed(blogs[i].name, GetArticleLinks(fetch(blogs[i].url)).error)
    decreases |blogs|
  {
    if FeedResolves(blogs[0], fetch) {
      ExpandTasksFailure(blogs[1..], fetch);
      var i :| 0 <= i < |blogs[1..]| && !FeedResolves(blogs[1..][i], fetch)
              && (forall j :: 0 <= j < i ==> FeedResolves(blogs[1..][j], fetch))
              && ExpandTasks(blogs[1..], fetch).error == FeedFailed(blogs[1..][i].name, GetArticleLinks(fetch(blogs[1..][i].url)).error);
      assert forall j :: 1 <= j < i + 1 ==> blogs[j] == blogs[1..][j - 1];
      assert blogs[i + 1] == blogs[1..][i];
    } else {
      assert ExpandTasks(blogs, fetch).error == FeedFailed(blogs[0].name, GetArticleLinks(fetch(blogs[0].url)).error);
    }
  }

  /** Every task is a copy of some configured blog that differs from it only in `url`. */
  lemma {:induction false} ExpandTasksOrigin(blogs: seq<BlogSource>, fetch: string -> FeedResponse)
    requires ExpandTasks(blogs, fetch).Success?
    ensures forall t :: t in ExpandTasks(blogs, fetch).value ==>
              exists i :: 0 <= i < |blogs| && t.(url := blogs[i].url) == blogs[i]
    decreases |blogs|
  {
    if |blogs| > 0 {
      var links := GetArticleLinks(fetch(blogs[0].url)).value;
      var mine := TasksForBlog(blogs[0], links);
      ExpandTasksOrigin(blogs[1..], fetch);
      var rest := ExpandTasks(blogs[1..], fetch).value;
      assert ExpandTasks(blogs, fetch).value == mine + rest;
      forall t: BlogSource | t in mine + rest
        ensures exists i :: 0 <= i < |blogs| && t.(url := blogs[i].url) == blogs[i]
      {
        if t in mine {
          var k :| 0 <= k < |mine| && mine[k] == t;
          assert t.(url := blogs[0].url) == blogs[0];
        } else {
          var i :| 0 <= i < |blogs[1..]| && t.(url := blogs[1..][i].url) == blogs[1..][i];
          assert blogs[1..][i] == blogs[i + 1];
        }
      }
    }
  }

  /** The feed of every blog in `blogs`, resolved: the tasks of a list of blogs are each blog's tasks, in order. */
  lemma {:induction false} ExpandTasksAppend(a: seq<BlogSource>, b: seq<BlogSource>, fetch: string -> FeedResponse)
    requires ExpandTasks(a, fetch).Success? && ExpandTasks(b, fetch).Success?
    ensures ExpandTasks(a + b, fetch) == Success(ExpandTasks(a, fetch).value + ExpandTasks(b, fetch).value)
    decreases |a|
  {
    if |a| == 0 {
      assert a + b == b;
      assert ExpandTasks(a, fetch).value == [];
      assert [] + ExpandTasks(b, fetch).value == ExpandTasks(b, fetch).value;
    } else {
      var x := a[0];
      var tail := a[1..];
      assert a == [x] + tail;
      var mine := TasksForBlog(x, GetArticleLinks(fetch(x.url)).value);
      assert FeedResolves(x, fetch) && ExpandTasks(tail, fetch).Success?;
      var tt := ExpandTasks(tail, fetch).value;
      var bt := ExpandTasks(b, fetch).value;
      assert ExpandTasks(a, fetch).value == mine + tt by {
        ExpandTasksCons(x, tail, fetch);
      }
      assert ExpandTasks(a + b, fetch) == Success(mine + (tt + bt)) by {
        ExpandTasksAppend(tail, b, fetch);
        assert a + b == [x] + (tail + b);
        ExpandTasksCons(x, tail + b, fetch);
      }
      ConcatAssoc(mine, tt, bt);
    }
  }

  lemma ConcatAssoc<T>(x: seq<T>, y: seq<T>, z: seq<T>)
    ensures x + (y + z) == (x + y) + z
  {
  }

  /** Prepending a blog whose feed resolves prepends its tasks. */
  lemma ExpandTasksCons(x: BlogSource, rest: seq<BlogSource>, fetch: string -> FeedResponse)
    requires FeedResolves(x, fetch) && ExpandTasks(rest, fetch).Success?
    ensures ExpandTasks([x] + rest, fetch) ==
              Success(TasksForBlog(x, GetArticleLinks(fetch(x.url)).value) + ExpandTasks(rest, fetch).value)
  {
    assert ([x] + rest)[0] == x;
    assert ([x] + rest)[1..] == rest;
  }

  /** A single blog contributes exactly its capped task list. */
  lemma ExpandOneBlog(b: BlogSource, fetch: string -> FeedResponse)
    requires FeedResolves(b, fetch)
    ensures ExpandTasks([b], fetch) == Success(TasksForBlog(b, GetArticleLinks(fetch(b.url)).value))
  {
    var tasks := TasksForBlog(b, GetArticleLinks(fetch(b.url)).value);
    assert [b][1..] == [];
    assert tasks + [] == tasks;
  }

  /** The serial `for await` loop: each task scraped once, in order, over the shared browser. */
  function ScrapeAll(tasks: seq<BlogSource>, world: World): (runs: seq<ScrapeRun>)
    ensures |runs| == |tasks|
    ensures forall i :: 0 <= i < |tasks| ==>
              runs[i] == ScrapeArticle(tasks[i], Supplied, world.render(tasks[i]), world.resolve)
  {
    if |tasks| == 0 then []
    else [ScrapeArticle(tasks[0], Supplied, world.render(tasks[0]), world.resolve)] + ScrapeAll(tasks[1..], world)
  }

  /** The `forEach` filter: the defined results, in order. */
  function ChaptersOf(runs: seq<ScrapeRun>): (chapters: seq<Chapter>)
    ensures |chapters| <= |runs|
    ensures forall c :: c in chapters <==> exists i :: 0 <= i < |runs| && runs[i].chapter == Some(c)
    ensures (forall i :: 0 <= i < |runs| ==> runs[i].chapter.Some?) ==>
              |chapters| == |runs| && forall i :: 0 <= i < |runs| ==> chapters[i] == runs[i].chapter.value
  {
    if |runs| == 0 then []
    else
      var rest := ChaptersOf(runs[1..]);
      assert forall i :: 1 <= i < |runs| ==> runs[i] == runs[1..][i - 1];
      match runs[0].chapter
      case None => rest
      case Some(c) => [c] + rest
  }

  /** Filtering keeps relative order: it distributes over concatenation. */
  lemma {:induction false} ChaptersOfAppend(a: seq<ScrapeRun>, b: seq<ScrapeRun>)
    ensures ChaptersOf(a + b) == ChaptersOf(a) + ChaptersOf(b)
    decreases |a|
  {
    if |a| == 0 {
      assert a + b == b;
    } else {
      assert (a + b)[0] == a[0];
      assert (a + b)[1..] == a[1..] + b;
      ChaptersOfAppend(a[1..], b);
    }
  }

  /** The browser calls of consecutive scrapes, one scrape after the other. */
  function CallsOf(runs: seq<ScrapeRun>): seq<Call>
  {
    if |runs| == 0 then [] else runs[0].calls + CallsOf(runs[1..])
  }

  /** The calls of two consecutive batches of scrapes are the first batch's calls, then the second's. */
  lemma {:induction false} CallsOfAppend(a: seq<ScrapeRun>, b: seq<ScrapeRun>)
    ensures CallsOf(a + b) == CallsOf(a) + CallsOf(b)
    decreases |a|
  {
    if |a| == 0 {
      assert a + b == b;
    } else {
      assert (a + b)[0] == a[0];
      assert (a + b)[1..] == a[1..] + b;
      CallsOfAppend(a[1..], b);
    }
  }

  /** Scraping `a + b` is scraping `a`, then `b`. */
  lemma ScrapeAllAppend(a: seq<BlogSource>, b: seq<BlogSource>, world: World)
    ensures ScrapeAll(a + b, world) == ScrapeAll(a, world) + ScrapeAll(b, world)
  {
  }

  /**
   * The serial loop never interleaves: scraping `a + b` issues every call
   * of `a`'s page visits before any call of `b`'s, and a single task's
   * calls are exactly its page visit.
   */
  lemma ScrapeAllCallsAppend(a: seq<BlogSource>, b: seq<BlogSource>, world: World)
    ensures CallsOf(ScrapeAll(a + b, world)) == CallsOf(ScrapeAll(a, world)) + CallsOf(ScrapeAll(b, world))
    ensures |a| == 1 ==> CallsOf(ScrapeAll(a, world)) == VisitPage(a[0], world.render(a[0]), world.resolve).calls
  {
    ScrapeAllAppend(a, b, world);
    CallsOfAppend(ScrapeAll(a, world), ScrapeAll(b, world));
    if |a| == 1 {
      var runs := ScrapeAll(a, world);
      assert runs[1..] == [];
      assert CallsOf(runs) == runs[0].calls + CallsOf(runs[1..]);
    }
  }

  /** How many of the tasks reach the end of the `try` block (and close their page). */
  function FullyScrapedCount(tasks: seq<BlogSource>, world: World): nat
  {
    if |tasks| == 0 then 0
    else (if FullyScraped(tasks[0], world.render(tasks[0]), world.resolve) then 1 else 0)
         + FullyScrapedCount(tasks[1..], world)
  }

  /** A prefix of the success trace opens one page and never launches or closes the browser. */
  lemma TracePrefixCalls(task: BlogSource, n: int)
    requires 1 <= n <= 10
    ensures multiset(SuccessTrace(task)[..n])[NewPage] == 1
    ensures multiset(SuccessTrace(task)[..n])[Launch] == 0
    ensures multiset(SuccessTrace(task)[..n])[CloseBrowser] == 0
  {
    var full := SuccessTrace(task);
    var p := full[..n];
    var q := full[1..n];
    assert p == [NewPage] + q;
    assert forall i :: 0 <= i < |q| ==> q[i] == full[i + 1];
    assert NewPage !in q;
    assert Launch !in p;
    assert CloseBrowser !in p;
  }

  /** A prefix of the success trace closes the page only if it is the whole trace. */
  lemma TracePrefixClose(task: BlogSource, n: int)
    requires 1 <= n <= 10
    ensures multiset(SuccessTrace(task)[..n])[ClosePage] == if n == 10 then 1 else 0
  {
    var full := SuccessTrace(task);
    var p := full[..n];
    if n == 10 {
      assert p == full[..9] + [ClosePage];
      assert ClosePage !in full[..9];
    } else {
      assert ClosePage !in p;
    }
  }

  /** One page visit opens one page and never launches or closes the browser. */
  lemma VisitCalls(task: BlogSource, page: PageOutcome, resolve: Resolver)
    ensures multiset(VisitPage(task, page, resolve).calls)[NewPage] == 1
    ensures multiset(VisitPage(task, page, resolve).calls)[Launch] == 0
    ensures multiset(VisitPage(task, page, resolve).calls)[CloseBrowser] == 0
    ensures multiset(VisitPage(task, page, resolve).calls)[ClosePage] ==
              if FullyScraped(task, page, resolve) then 1 else 0
  {
    var calls := VisitPage(task, page, resolve).calls;
    var full := SuccessTrace(task);
    assert calls == full[..|calls|];
    TracePrefixCalls(task, |calls|);
    TracePrefixClose(task, |calls|);
    if |calls| == 10 {
      assert calls[9] == ClosePage;
    } else {
      assert ClosePage !in calls by {
        assert forall i :: 0 <= i < |calls| ==> calls[i] == full[i];
      }
    }
  }

  /**
   * Scraping serially over a supplied browser: one page per task, the page
   * closed only by fully scraped tasks, and the browser neither launched nor
   * closed by any task.
   */
  lemma {:induction false} ScrapeAllCalls(tasks: seq<BlogSource>, world: World)
    ensures multiset(CallsOf(ScrapeAll(tasks, world)))[NewPage] == |tasks|
    ensures multiset(CallsOf(ScrapeAll(tasks, world)))[ClosePage] == FullyScrapedCount(tasks, world)
    ensures multiset(CallsOf(ScrapeAll(tasks, world)))[Launch] == 0
    ensures multiset(CallsOf(ScrapeAll(tasks, world)))[CloseBrowser] == 0
    decreases |tasks|
  {
    if |tasks| > 0 {
      var runs := ScrapeAll(tasks, world);
      assert runs[1..] == ScrapeAll(tasks[1..], world);
      assert CallsOf(runs) == runs[0].calls + CallsOf(runs[1..]);
      VisitCalls(tasks[0], world.render(tasks[0]), world.resolve);
      ScrapeAllCalls(tasks[1..], world);
    }
  }

  /**
   * The calls of a preparation that got its browser: launched first, closed
   * last, each exactly once, with the tasks' page visits in between.
   */
  lemma SharedBrowserCalls(tasks: seq<BlogSource>, world: World)
    ensures var calls := [Launch] + CallsOf(ScrapeAll(tasks, world)) + [CloseBrowser];
            && calls[0] == Launch
            && calls[|calls| - 1] == CloseBrowser
            && multiset(calls)[Launch] == 1
            && multiset(calls)[CloseBrowser] == 1
            && multiset(calls)[NewPage] == |tasks|
            && multiset(calls)[ClosePage] == FullyScrapedCount(tasks, world)
  {
    var inner := CallsOf(ScrapeAll(tasks, world));
    var calls := [Launch] + inner + [CloseBrowser];
    ScrapeAllCalls(tasks, world);
    assert multiset(calls) == multiset([Launch]) + multiset(inner) + multiset([CloseBrowser]);
  }

  /**
   * `prepareEpub()`. A failing feed rejects the whole preparation before the
   * browser is launched. Otherwise one browser is launched, every task is
   * scraped over it, it is closed once after the last task, and the
   * chapters are the defined results in task order.
   */
  function PrepareEpub(blogs: seq<BlogSource>, world: World): (p: Prepared)
    ensures ExpandTasks(blogs, world.fetch).Failure? ==>
              p.outcome == Failure(ExpandTasks(blogs, world.fetch).error) && p.calls == []
    ensures p.outcome.Success? <==> ExpandTasks(blogs, world.fetch).Success? && world.launchOk
    ensures p.outcome.Success? ==> |p.calls| >= 2
    ensures ExpandTasks(blogs, world.fetch).Success? && !world.launchOk ==>
              p == Prepared(Failure(BrowserLaunchFailed), [Launch])
    ensures p.outcome.Success? ==>
              p.calls == [Launch] + CallsOf(ScrapeAll(ExpandTasks(blogs, world.fetch).value, world)) + [CloseBrowser]
    ensures p.outcome.Success? ==>
              var tasks := ExpandTasks(blogs, world.fetch).value;
              && |p.outcome.value| <= |tasks|
              && p.outcome.value == ChaptersOf(ScrapeAll(tasks, world))
              && p.calls[0] == Launch
              && p.calls[|p.calls| - 1] == CloseBrowser
              && multiset(p.calls)[Launch] == 1
              && multiset(p.calls)[CloseBrowser] == 1
              && multiset(p.calls)[NewPage] == |tasks|
              && multiset(p.calls)[ClosePage] == FullyScrapedCount(tasks, world)
  {
    match ExpandTasks(blogs, world.fetch)
    case Failure(e) => Prepared(Failure(e), [])
    case Success(tasks) =>
      if !world.launchOk then Prepared(Failure(BrowserLaunchFailed), [Launch])
      else
        var runs := ScrapeAll(tasks, world);
        SharedBrowserCalls(tasks, world);
        Prepared(Success(ChaptersOf(runs)), [Launch] + CallsOf(runs) + [CloseBrowser])
  }

  /** With no per-blog isolation, one unresolvable feed leaves no chapters at all. */
  lemma OneFeedFailureRejectsAll(blogs: seq<BlogSource>, world: World, i: int)
    requires 0 <= i < |blogs| && !FeedResolves(blogs[i], world.fetch)
    ensures PrepareEpub(blogs, world).outcome.Failure?
    ensures PrepareEpub(blogs, world).calls == []
  {
    AllFeedsResolveIff(blogs, world.fetch);
  }

  /** When every scrape yields a chapter, there is one chapter per task, in task order. */
  lemma AllScrapesSucceed(blogs: seq<BlogSource>, world: World)
    requires ExpandTasks(blogs, world.fetch).Success? && world.launchOk
    requires forall t :: t in ExpandTasks(blogs, world.fetch).value ==>
               ScrapeArticle(t, Supplied, world.render(t), world.resolve).chapter.Some?
    ensures var tasks := ExpandTasks(blogs, world.fetch).value;
            var chapters := PrepareEpub(blogs, world).outcome.value;
            && |chapters| == |tasks|
            && forall i :: 0 <= i < |tasks| ==>
                 Some(chapters[i]) == ScrapeArticle(tasks[i], Supplied, world.render(tasks[i]), world.resolve).chapter
  {
  }
}

=== FILE: runner.dfy ===
/**
 * `run` and `sendEpub`: the names of one run, the order of its three steps,
 * and the mail request handed to the transport.
 */
module Runner {
  import opened Wrappers
  import opened Blog
  import opened Scraper
  import opened Pipeline
  import opened Naming

  /** The process environment after `dotenv.config()`. */
  type Env = map<string, string>

  /** The MIME type given to the attachment. */
  const EpubContentType: string := "application/epub"

  /** `process.env[key] || ''`: the variable's value, or empty when it is unset or empty. */
  function EnvOr(env: Env, key: string): (v: string)
    ensures v == "" <==> key !in env || env[key] == ""
    ensures v != "" ==> key in env && v == env[key]
  {
    if key in env then env[key] else ""
  }

  datatype Credentials = Credentials(user: string, pass: string)

  datatype Attachment = Attachment(filename: string, path: string, contentType: string)

  /** The arguments `sendEpub` passes to `sendFile`. */
  datatype MailRequest = MailRequest(
    service: string,
    auth: Credentials,
    recipients: string,
    attachments: seq<Attachment>)

  /** `v` is what `key` holds in `env`, or empty when `key` is unset. */
  predicate ReadFrom(env: Env, key: string, v: string)
  {
    if key in env then v == env[key] else v == ""
  }

  /** `sendEpub(fileName, outputPath)`: one attachment, credentials and addressing from the environment. */
  function SendEpub(fileName: string, outputPath: string, env: Env): (m: MailRequest)
    ensures ReadFrom(env, "EMAIL_PROVIDER", m.service)
    ensures ReadFrom(env, "EMAIL_USER", m.auth.user)
    ensures ReadFrom(env, "EMAIL_PASSWORD", m.auth.pass)
    ensures ReadFrom(env, "EMAIL_RECIPIENTS", m.recipients)
    ensures |m.attachments| == 1
    ensures m.attachments[0].filename == fileName && m.attachments[0].path == outputPath
    ensures m.attachments[0].contentType == EpubContentType
  {
    MailRequest(
      EnvOr(env, "EMAIL_PROVIDER"),
      Credentials(EnvOr(env, "EMAIL_USER"), EnvOr(env, "EMAIL_PASSWORD")),
      EnvOr(env, "EMAIL_RECIPIENTS"),
      [Attachment(fileName, outputPath, EpubContentType)])
  }

  /** A step of `run` that was started. */
  datatype RunStep =
    | Prepare
    | Generate(title: string, chapters: seq<Chapter>, output: string)
    | Send(mail: MailRequest)

  /**
   * What one run did: the steps it started in order, the browser calls of
   * its preparation, and whether its promise resolved.
   */
  datatype RunRecord = RunRecord(steps: seq<RunStep>, browserCalls: seq<Call>, completed: bool)

  /**
   * `run()`, with the clock reading `iso` and `exported` saying whether the
   * awaited `generateEpub` call resolved (it awaits the writer object, not
   * the write itself). A rejected step ends the run; mail delivery is not
   * awaited, so a started send completes the run.
   */
  function Run(iso: string, blogs: seq<BlogSource>, world: World, env: Env, exported: bool): (r: RunRecord)
    ensures |r.steps| > 0 && r.steps[0] == Prepare
    ensures r.browserCalls == PrepareEpub(blogs, world).calls
    ensures r.completed <==> PrepareEpub(blogs, world).outcome.Success? && exported
    ensures |r.steps| == 1 <==> PrepareEpub(blogs, world).outcome.Failure?
    ensures |r.steps| > 1 ==>
              && r.steps[1].Generate?
              && r.steps[1].chapters == PrepareEpub(blogs, world).outcome.value
              && r.steps[1].output == OutputPath(FileName(Stamp(iso)))
              && r.steps[1].title == EpubTitle(Stamp(iso))
    ensures r.completed ==>
              && |r.steps| == 3
              && r.steps[2] == Send(SendEpub(FileName(Stamp(iso)), OutputPath(FileName(Stamp(iso))), env))
              && |r.steps[2].mail.attachments| == 1
              && r.steps[2].mail.attachments[0].path == r.steps[1].output
              && OutputPath(r.steps[2].mail.attachments[0].filename) == r.steps[1].output
  {
    var stamp := Stamp(iso);
    var title := EpubTitle(stamp);
    var fileName := FileName(stamp);
    var outputPath := OutputPath(fileName);
    var prepared := PrepareEpub(blogs, world);
    match prepared.outcome
    case Failure(_) => RunRecord([Prepare], prepared.calls, false)
    case Success(chapters) =>
      if !exported then RunRecord([Prepare, Generate(title, chapters, outputPath)], prepared.calls, false)
      else
        RunRecord([Prepare, Generate(title, chapters, outputPath), Send(SendEpub(fileName, outputPath, env))],
                  prepared.calls, true)
  }

  /**
   * A run prepares first and stops there if preparation rejects; otherwise
   * it writes the prepared chapters under the run's title and path, and then
   * mails exactly that file under its file name.
   */
  lemma RunOrder(iso: string, blogs: seq<BlogSource>, world: World, env: Env, exported: bool)
    ensures var r := Run(iso, blogs, world, env, exported);
            var prepared := PrepareEpub(blogs, world);
            && |r.steps| > 0 && r.steps[0] == Prepare
            && r.browserCalls == prepared.calls
            && (prepared.outcome.Failure? ==> |r.steps| == 1 && !r.completed)
            && (prepared.outcome.Success? ==>
                  && |r.steps| == (if exported then 3 else 2)
                  && r.steps[1] == Generate(EpubTitle(Stamp(iso)), prepared.outcome.value,
                                            OutputPath(FileName(Stamp(iso))))
                  && r.completed == exported)
  {
  }

  /**
   * The mailed attachment is the export target: its path is the output path
   * handed to the export step, its name is the last component of that path,
   * and it is the only attachment.
   */
  lemma MailedFileIsExportTarget(iso: string, blogs: seq<BlogSource>, world: World, env: Env)
    requires ExpandTasks(blogs, world.fetch).Success? && world.launchOk
    ensures var r := Run(iso, blogs, world, env, true);
            && |r.steps| == 3 && r.steps[1].Generate? && r.steps[2].Send?
            && |r.steps[2].mail.attachments| == 1
            && r.steps[2].mail.attachments[0].path == r.steps[1].output
            && OutputPath(r.steps[2].mail.attachments[0].filename) == r.steps[1].output
            && r.steps[2].mail.attachments[0].contentType == EpubContentType
  {
  }

  /** Every mail field read from the environment is empty when its variable is unset. */
  lemma MailDefaults(fileName: string, outputPath: string, env: Env)
    ensures var m := SendEpub(fileName, outputPath, env);
            && ("EMAIL_PROVIDER" !in env ==> m.service == "")
            && ("EMAIL_USER" !in env ==> m.auth.user == "")
            && ("EMAIL_PASSWORD" !in env ==> m.auth.pass == "")
            && ("EMAIL_RECIPIENTS" !in env ==> m.recipients == "")
            && m.attachments == [Attachment(fileName, outputPath, EpubContentType)]
  {
  }
}

=== FILE: scraper.dfy ===
/**
 * `scrapeArticle`: one article page turned into a chapter, or into nothing.
 * The headless browser is replaced by a `PageOutcome` saying what the page
 * did, and the scraper's effect on the browser is the list of browser calls
 * it issues, in order.
 */
module Scraper {
  import opened Wrappers
  import opened Blog
  import opened Markup
  import opened Images

  /** The default navigation timeout set on every new page: two minutes. */
  const NavigationTimeoutMs: int := 2 * 60 * 1000

  /** The title used when the title element's text is empty or null. */
  const NoTitle: string := "No title"

  /** The body of a chapter whose article root could not be queried. */
  const NoContent: string := "No content."

  /** The body used when the content matches join to nothing (spelled as the program spells it). */
  const NoConent: string := "No conent"

  /** A call the scraper makes on the browser or on its page. */
  datatype Call =
    | Launch                          // puppeteer.launch
    | NewPage                         // browser.newPage
    | SetNavigationTimeout(ms: int)   // page.setDefaultNavigationTimeout
    | Goto(url: string)               // page.goto
    | WaitForSelector(selector: string)
    | ReadText(selector: string)      // page.$eval(selector, textContent)
    | QuerySelector(selector: string) // page.$(selector)
    | RewriteImages(base: string)     // updateImages on the article root
    | ReadOuterHtml(selector: string) // article.$$eval(selector, outerHTML)
    | ClosePage
    | CloseBrowser

  /**
   * What the page did. Each failing variant names the call that rejected;
   * `Rendered` carries the title element's text (`None` for null), the
   * article root (`None` when `page.$` found nothing), and whether the
   * content `$$eval` resolved. That read is not preceded by a wait, and it
   * rejects on an invalid content selector, a root detached meanwhile or a
   * destroyed execution context.
   */
  datatype PageOutcome =
    | OpenFailed
    | NavigationFailed
    | TitleWaitFailed
    | ArticleWaitFailed(titleText: Option<string>)
    | Rendered(titleText: Option<string>, root: Option<ArticleRoot>, contentRead: bool)

  /**
   * The browser argument: supplied by the caller, or absent, in which case
   * the scraper launches its own and the launch may reject.
   */
  datatype BrowserArg = Supplied | NotSupplied(launchOk: bool)

  /** The resolved value of one call (`None` for `undefined`) and the calls it made. */
  datatype ScrapeRun = ScrapeRun(chapter: Option<Chapter>, calls: seq<Call>)

  /** `textContent || 'No title'`. */
  function TitleOr(text: Option<string>): (t: string)
    ensures |t| > 0
    ensures text.Some? && text.value != "" ==> t == text.value
    ensures text.None? || text.value == "" ==> t == NoTitle
  {
    match text
    case None => NoTitle
    case Some(s) => if s == "" then NoTitle else s
  }

  /** `paragraphs.join('\n') || 'No conent'` over the matches' `outerHTML`. */
  function ContentData(matches: seq<seq<Token>>): (data: string)
    ensures |data| > 0
    ensures JoinLines(OuterHtmls(matches)) != "" ==> data == JoinLines(OuterHtmls(matches))
    ensures JoinLines(OuterHtmls(matches)) == "" ==> data == NoConent
    ensures |matches| == 0 ==> data == NoConent
  {
    var joined := JoinLines(OuterHtmls(matches));
    if joined == "" then NoConent else joined
  }

  /** Each match is an element: its stream starts with markup, not text. */
  predicate ElementMatches(matches: seq<seq<Token>>)
  {
    forall k :: 0 <= k < |matches| ==> |matches[k]| > 0 && !matches[k][0].Text?
  }

  /** For element matches, the misspelt fallback appears exactly when nothing matched. */
  lemma NoConentIffNoMatches(matches: seq<seq<Token>>)
    requires ElementMatches(matches)
    ensures ContentData(matches) == NoConent <==> |matches| == 0
  {
    if |matches| > 0 {
      var hs := OuterHtmls(matches);
      assert |hs[0]| > 0 && hs[0][0] == '<';
      var joined := JoinLines(hs);
      assert joined[0] == '<';
      assert NoConent[0] == 'N';
    }
  }

  /** Every call a page visit issues when nothing goes wrong, in order. */
  function SuccessTrace(task: BlogSource): (t: seq<Call>)
    ensures |t| == 10
  {
    [ NewPage,
      SetNavigationTimeout(NavigationTimeoutMs),
      Goto(task.url),
      WaitForSelector(task.titleSelector),
      ReadText(task.titleSelector),
      WaitForSelector(task.articleSelector),
      QuerySelector(task.articleSelector),
      RewriteImages(task.url),
      ReadOuterHtml(task.contentSelector),
      ClosePage ]
  }

  /**
   * The page reached the end of the try block: article root found, every
   * image resolved and the content read.
   */
  predicate FullyScraped(task: BlogSource, page: PageOutcome, resolve: Resolver)
  {
    page.Rendered? && page.root.Some? && RootResolves(page.root.value, task.url, resolve) && page.contentRead
  }

  /**
   * How many calls of the success trace a visit issues: up to and including
   * the call that rejected, or `page.$` for a missing root, or all of them.
   */
  function VisitLength(task: BlogSource, page: PageOutcome, resolve: Resolver): (n: nat)
    ensures 1 <= n <= 10
    ensures n == 10 <==> FullyScraped(task, page, resolve)
  {
    match page
    case OpenFailed => 1
    case NavigationFailed => 3
    case TitleWaitFailed => 4
    case ArticleWaitFailed(_) => 6
    case Rendered(_, None, _) => 7
    case Rendered(_, Some(root), contentRead) =>
      if !RootResolves(root, task.url, resolve) then 8
      else if !contentRead then 9
      else 10
  }

  /**
   * The body of the `try` block once a browser is available: open a page,
   * navigate, wait for and read the title, wait for and query the article,
   * rewrite its images, serialise the content, close the page. A rejected
   * call ends the visit with no chapter.
   */
  function VisitPage(task: BlogSource, page: PageOutcome, resolve: Resolver): (run: ScrapeRun)
    ensures run.calls <= SuccessTrace(task)
    ensures |run.calls| > 0
    ensures run.calls == SuccessTrace(task)[..VisitLength(task, page, resolve)]
    ensures run.chapter.Some? <==>
              page.Rendered? && (page.root.None? || (RootResolves(page.root.value, task.url, resolve) && page.contentRead))
    ensures run.chapter.Some? ==> run.chapter.value.title == TitleOr(page.titleText)
    ensures run.chapter.Some? ==> |run.chapter.value.title| > 0 && |run.chapter.value.data| > 0
    ensures page.Rendered? && page.root.None? ==> run.chapter == Some(Chapter(TitleOr(page.titleText), NoContent))
    ensures FullyScraped(task, page, resolve) ==>
              run.chapter == Some(Chapter(TitleOr(page.titleText),
                ContentData(UpdateImages(page.root.value, task.url, resolve).value.content)))
  {
    var steps := SuccessTrace(task);
    match page
    case OpenFailed => ScrapeRun(None, steps[..1])
    case NavigationFailed => ScrapeRun(None, steps[..3])
    case TitleWaitFailed => ScrapeRun(None, steps[..4])
    case ArticleWaitFailed(_) => ScrapeRun(None, steps[..6])
    case Rendered(text, root, contentRead) =>
      var title := TitleOr(text);
      match root
      case None => ScrapeRun(Some(Chapter(title, NoContent)), steps[..7])
      case Some(r) =>
        match UpdateImages(r, task.url, resolve)
        case None =>
          assert steps[..8][7] == RewriteImages(task.url);
          ScrapeRun(None, steps[..8])
        case Some(rewritten) =>
          if !contentRead then ScrapeRun(None, steps[..9])
          else ScrapeRun(Some(Chapter(title, ContentData(rewritten.content))), steps)
  }

  /**
   * A visit closes its page exactly when it ran the whole `try` block, and
   * rewrites images exactly when the article root was found.
   */
  lemma VisitPageMarks(task: BlogSource, page: PageOutcome, resolve: Resolver)
    ensures ClosePage in VisitPage(task, page, resolve).calls <==> FullyScraped(task, page, resolve)
    ensures RewriteImages(task.url) in VisitPage(task, page, resolve).calls <==> page.Rendered? && page.root.Some?
  {
    var calls := VisitPage(task, page, resolve).calls;
    var trace := SuccessTrace(task);
    var n := VisitLength(task, page, resolve);
    assert |calls| == n;
    assert forall i :: 0 <= i < n ==> calls[i] == trace[i];
    if n == 10 {
      assert calls[9] == ClosePage;
    } else {
      assert forall i :: 0 <= i < 9 ==> trace[i] != ClosePage;
    }
    if n >= 8 {
      assert calls[7] == RewriteImages(task.url);
    } else {
      assert forall i :: 0 <= i < 7 ==> trace[i] != RewriteImages(task.url);
    }
  }

  /**
   * `scrapeArticle(task, browser)`. The scraper launches a browser only when
   * none is supplied, and its `finally` closes the browser only when it did
   * the launching and the launch succeeded.
   */
  function ScrapeArticle(task: BlogSource, browser: BrowserArg, page: PageOutcome, resolve: Resolver): (run: ScrapeRun)
    ensures Launch in run.calls <==> browser.NotSupplied?
    ensures CloseBrowser in run.calls <==> browser == NotSupplied(true)
    ensures CloseBrowser in run.calls ==> run.calls[|run.calls| - 1] == CloseBrowser
    ensures browser.Supplied? ==> run == VisitPage(task, page, resolve)
    ensures browser == NotSupplied(false) ==> run.chapter.None? && run.calls == [Launch]
    ensures browser == NotSupplied(true) ==>
              run.calls == [Launch] + VisitPage(task, page, resolve).calls + [CloseBrowser]
    ensures browser != NotSupplied(false) ==> run.chapter == VisitPage(task, page, resolve).chapter
  {
    match browser
    case Supplied => VisitPage(task, page, resolve)
    case NotSupplied(launchOk) =>
      if !launchOk then ScrapeRun(None, [Launch])
      else
        var visit := VisitPage(task, page, resolve);
        ScrapeRun(visit.chapter, [Launch] + visit.calls + [CloseBrowser])
  }

  /**
   * A chapter scraped from an article root is the serialisation of the
   * content matches after their images were rewritten; so when the resolver
   * only yields absolute URLs, no `img` in the chapter's markup has a
   * relative `src`.
   */
  lemma ScrapedImagesAbsolute(task: BlogSource, browser: BrowserArg, page: PageOutcome,
                              resolve: Resolver, absolute: string -> bool)
    requires forall h, b :: resolve(h, b).Some? ==> absolute(resolve(h, b).value)
    requires page.Rendered? && page.root.Some?
    requires ScrapeArticle(task, browser, page, resolve).chapter.Some?
    ensures exists matches: seq<seq<Token>> ::
              && ScrapeArticle(task, browser, page, resolve).chapter.value.data == ContentData(matches)
              && |matches| == |page.root.value.content|
              && (forall k :: 0 <= k < |matches| ==>
                    RewrittenFrom(matches[k], page.root.value.content[k], task.url, resolve))
              && (forall k, i :: 0 <= k < |matches| && 0 <= i < |matches[k]| && matches[k][i].Img? ==>
                    absolute(matches[k][i].src))
  {
    var root := page.root.value;
    var rewritten := UpdateImages(root, task.url, resolve).value;
    var matches: seq<seq<Token>> := rewritten.content;
    forall k | 0 <= k < |matches|
      ensures forall i :: 0 <= i < |matches[k]| && matches[k][i].Img? ==> absolute(matches[k][i].src)
    {
      RewrittenImagesAbsolute(matches[k], root.content[k], task.url, resolve, absolute);
    }
    assert ScrapeArticle(task, browser, page, resolve).chapter.value.data == ContentData(matches);
  }
}

=== FILE: wrappers.dfy ===
/** Failure-carrying datatypes shared by the whole model. */
module Wrappers {

  /** An optional value: `None` stands for JavaScript's `undefined`/`null`. */
  datatype Option<+T> = None | Some(value: T)

  /** The outcome of an operation that can reject with an error. */
  datatype Result<+R, +E> = Success(value: R) | Failure(error: E)
}
